=== FILE: README.md ===
# Payment callback pipeline: a Dafny model

This project models how the payment library handles asynchronous payment
notifications ("callbacks"). It covers the Alipay callback handler and one WeChat check:

- the Alipay handler `AlipayCallbackHandler`, in four parts:
  - it flattens the servlet's multi-valued parameter map (`getAlipayCallBackMap`);
  - it can verify the RSA signature through the Alipay SDK;
  - it classifies the notification and maps its fields into a `CallBackParam` (`getCallBackParam`);
  - it calls the business handler and writes one acknowledgment line, `success` or `fail` (`handler`);
- the WeChat response signature check `WeChatPayUtil.checkIsSignValidFromResponseString`.

Everything is a pure function over immutable values:

- Java `null` becomes `Option.None`.
- A thrown exception becomes a `Result.Failure`, or the `escapes` flag of a response.
- The handler's writer becomes a list of written lines.
- The WeChat check mutates the caller's map in place. The model returns that map as `mapAfter`.
- The foreign calls are function-typed parameters with no interpretation:
  - the SDK's `AlipaySignature.rsaCheckV1`;
  - WeChat's `Signature.getSign`;
  - the business handler `ConcretePayService.handler`.

The `AliPay` singleton configuration becomes an immutable `AliPayConfig` value (public key and charset).

Files:

- `wrappers.dfy`: `Option`, `Result` and map lookup.
- `alipay_params.dfy`: the normaliser. It holds the reference `Join` and `Split` and the two loops of `getAlipayCallBackMap`.
- `alipay_parser.dfy`: status classification and field mapping.
- `alipay_callback.dfy`: the handler's control flow.
- `wechat_sign.dfy`: the WeChat signature check.

All members are side-effect free (functions, and two methods that only compute a result), so every outcome depends only on the arguments: the
maps and the uninterpreted functions. No other state is consulted.

## Model

| member | source | states |
|---|---|---|
| AlipayParams.AlipayCallBackMap | src/main/java/com/alan344happyframework/core/callback/AlipayCallbackHandler.java:97-109 | the key-by-key loop builds a map with the same key set as the request, each entry the joined values; the result equals the reference normaliser |
| AlipayParams.JoinValues | src/main/java/com/alan344happyframework/core/callback/AlipayCallbackHandler.java:101-105 | the index loop (a comma after every value but the last) yields the reference join; an empty array gives "" and a one-element array gives that element |
| AlipayParams.JoinLength | src/main/java/com/alan344happyframework/core/callback/AlipayCallbackHandler.java:102-105 | for n >= 1 values the joined length is the sum of their lengths plus n - 1 |
| AlipayParams.SplitJoin | src/main/java/com/alan344happyframework/core/callback/AlipayCallbackHandler.java:102-105 | when no value contains ',' and the array is non-empty, splitting the joined string on ',' gives back the array |
| AlipayParams.JoinSplit | src/main/java/com/alan344happyframework/core/callback/AlipayCallbackHandler.java:101-105 | the converse round trip: joining the ','-separated pieces of any string rebuilds it, so every string is the normalised form of some array, and splitting is a right inverse of the join |
| AlipayParams.JoinInjective | src/main/java/com/alan344happyframework/core/callback/AlipayCallbackHandler.java:101-105 | two different comma-free, non-empty arrays never normalise to the same string |
| AlipayParams.EmptyArrayCollidesWithBlank | src/main/java/com/alan344happyframework/core/callback/AlipayCallbackHandler.java:101-105 | an empty array and the array [""] both normalise to "", so the round trip needs a non-empty array |
| AlipayParams.CallBackMapRecoversValues | src/main/java/com/alan344happyframework/core/callback/AlipayCallbackHandler.java:98-108 | every parameter whose values are comma-free and non-empty is present in the normalised map and splits back to its original array |
| AlipayParser.GetCallBackParam | src/main/java/com/alan344happyframework/core/callback/AlipayCallbackHandler.java:59-87 | an event is produced iff trade_status is present and equals "TRADE_SUCCESS"; otherwise the error is the trade-status error; the pay type is always Alipay; the order id is absent iff out_trade_no is, the price absent iff total_amount is |
| AlipayParser.ParseSuccessFields | src/main/java/com/alan344happyframework/core/callback/AlipayCallbackHandler.java:61-83 | on a success status, orderId = out_trade_no, thirdOrderId = trade_no, payAccount = buyer_id, callBackPrice = total_amount, each None when its key is absent, and payType the fixed Alipay value |
| AlipayParser.ParseRejectsOtherStatus | src/main/java/com/alan344happyframework/core/callback/AlipayCallbackHandler.java:74-86 | any status other than "TRADE_SUCCESS", an absent one included, yields the trade-status error and no event |
| AlipayParser.ParseReadsOnlyItsFields | src/main/java/com/alan344happyframework/core/callback/AlipayCallbackHandler.java:61-71 | two notifications that agree on the five keys read parse to the same result, whatever else they carry |
| AlipayParser.ParseNotificationRoundTrip | src/main/java/com/alan344happyframework/core/callback/AlipayCallbackHandler.java:59-87 | every event, rendered as a success notification with its present fields, parses back to itself |
| AlipayParser.ParseCompleteExample | src/main/java/com/alan344happyframework/core/callback/AlipayCallbackHandler.java:74-83 | the notification ORD1/TXN1/B1/9.99 with status TRADE_SUCCESS becomes the event with exactly those fields |
| AlipayParser.ParseMissingFieldsExample | src/main/java/com/alan344happyframework/core/callback/AlipayCallbackHandler.java:61-83 | a success notification without other fields is accepted, every field absent; missing ids are not rejected |
| AlipayParser.ParseWaitBuyerPayExample | src/main/java/com/alan344happyframework/core/callback/AlipayCallbackHandler.java:84-86 | a WAIT_BUYER_PAY notification is rejected with the trade-status error |
| AlipayCallback.Dispatch | src/main/java/com/alan344happyframework/core/callback/AlipayCallbackHandler.java:35-57 | the handler is called with the parsed event exactly when verification was skipped or passed and the status is TRADE_SUCCESS; "success" is written iff, in addition, the business handler returned; otherwise exactly one "fail" is written unless an Error escapes or the writer is missing, and then nothing is written; each step is recorded exactly when it runs, in the order verify, parse, handler; verification is called exactly when requested, with the normalised map, key and charset |
| AlipayCallback.HandleAsWritten | src/main/java/com/alan344happyframework/core/callback/AlipayCallbackHandler.java:43 | the sign type handed to verification is the value under the literal key "sign_type)" |
| AlipayCallback.Handle | src/main/java/com/alan344happyframework/core/callback/AlipayCallbackHandler.java:43 | corrected handler: the sign type handed to verification is the notification's own "sign_type" value |
| AlipayCallback.SignTypeTypoCounterexample | src/main/java/com/alan344happyframework/core/callback/AlipayCallbackHandler.java:43 | for a notification carrying sign_type=RSA2, the handler as written passes no sign type while the corrected one passes "RSA2" |
| AlipayCallback.ValidNotificationAcknowledged | src/main/java/com/alan344happyframework/core/callback/AlipayCallbackHandler.java:43-47 | for the corrected handler: a verified TRADE_SUCCESS notification whose business handler returns is acknowledged "success" |
| AlipayCallback.TamperedNotificationRejected | src/main/java/com/alan344happyframework/core/callback/AlipayCallbackHandler.java:43-45 | for the corrected handler: a notification the SDK does not accept is acknowledged "fail", and only the verification step runs: no parse, no business handler |
| WeChatSign.CheckIsSignValid | src/main/java/com/ehu/pay/weixin/WeChatPayUtil.java:69-87 | an absent sign is a NullPointerException, not false, and leaves the map untouched; the result is true iff getSign of the map with sign blanked equals the sign held before the call and the reference-equality early check did not fire; an empty sign gives false whenever the recomputed signature is non-empty; whenever a sign was present the map is left with sign = "" (the literal object) and every other entry unchanged |
| WeChatSign.SignFieldExcluded | src/main/java/com/ehu/pay/weixin/WeChatPayUtil.java:77-79 | two maps that differ only in their sign value recompute the same signature |
| WeChatSign.TamperedFieldRejected | src/main/java/com/ehu/pay/weixin/WeChatPayUtil.java:77-85 | if a map passes, a map with the same sign but any other field changed fails, unless getSign collides on the two blanked maps |
| WeChatSign.RepeatedCheckFails | src/main/java/com/ehu/pay/weixin/WeChatPayUtil.java:77-85 | the literal blank the check stores in the caller's map makes a second check on that map take the early reference-equality exit: it returns false whatever getSign computes, and leaves the map as it was |
| WeChatSign.EmptySignRejectedEitherWay | src/main/java/com/ehu/pay/weixin/WeChatPayUtil.java:71-85 | an empty sign gives false whether or not the reference check fires, provided the recomputed signature is non-empty; either way the map is left as it was, its sign entry the literal "" |

## Left out

- Servlet plumbing: `getParameterMap`, `getWriter`, `println` and `close`. The request is the parameter map. The writer is the `writerAvailable` flag, and the response is the list of lines written. Closing the writer in `finally` is not modelled.
- Logging.
- The `getInstance` singletons. `AliPay.getInstance()` is replaced by an `AliPayConfig` parameter.
- `AlipaySignature.rsaCheckV1` is a function parameter. Its RSA check is foreign code. Only its three possible outcomes are kept: accept, reject, or throw `AlipayApiException`.
- AlipayCallback.Dispatch: `rsaCheckV1` is handed the same `paramsMap` object that `getCallBackParam` reads afterwards. The model assumes the SDK leaves the map, and so the five parsed keys, unchanged.
- `Signature.getSign` is a function parameter. Its source is not part of this model. Whether it skips the blank `sign` entry is therefore unknown.
- WeChatSign.CheckIsSignValid: `getSign` is assumed to return a non-null string, throw nothing and leave the map alone. The source declares `JDOMException`, `IOException` and `IllegalAccessException`, which only `getSign` can raise, and a null result would be a `NullPointerException` at `equals`. On those paths an exception escapes after the map was already blanked. The clauses `r.outcome.Failure? <==> SignKey !in m` and `SignKey in m ==> r.mapAfter == Blanked(m)`, and the lemma `RepeatedCheckFails`, depend on this assumption.
- The business handler `ConcretePayService.handler` is a function from the event to an outcome: return, throw an `Exception`, or throw an `Error`. Its idempotency is its own concern and is not modelled.
- The rest of `WeChatPayUtil.java`: `createWeiXinPackage`, `getScanPayInfo`, `queryWeChatOrder`, `weChatRefund`, `weChatRefundXcx`, `weChatBusinessPayForUser` and `downloadBill`. Each is a one-line delegation to network or file code that is not part of this model.
- `total_amount` is never interpreted as a number. It stays a string, as in the source.
- The numeric value of `PayBaseConstants.ORDER_PAY_TYPE_ALIPAY` is not part of this model. The pay type is the enum value `PayType.Alipay`.
- Java `String` object identity. The early check `signFromAPIResponse == ""` compares references, and the model replaces it with the flag `receivedIsLiteral`. The flag says whether the received string is the interned literal. The following `== null` test can never be true after `toString()`, so the model has no branch for it.
- `writerAvailable = false` means `getWriter` threw. A `getWriter` that returns null is not modelled. On that path the source behaves in one of four ways:
  - If a requested verification fails or the status is not `TRADE_SUCCESS`, control goes straight to the catch block. The `NullPointerException` from `println("fail")` escapes, and the business handler never runs.
  - Otherwise the business handler runs, and what escapes depends on it:
    - If the business handler returns, the `NullPointerException` from `println("success")` is caught, and the second one, from `println("fail")`, escapes.
    - If it throws an `Exception`, control goes straight to the catch block, so `println("success")` never runs. The `NullPointerException` from `println("fail")` escapes.
    - If it throws an `Error`, that `Error` escapes and no `NullPointerException` occurs.
  - In every case nothing is written.
- Assertions. With Java assertions enabled, a missing writer raises an `AssertionError` at `assert out != null` rather than a `NullPointerException`. Either way an exception escapes and nothing is written. The model records only that.
- Behaviour kept as the code has it:
  - A missing WeChat `sign` throws rather than returning false.
  - The handler does not write an acknowledgment when the writer is missing.
  - The handler does not write one when the business handler throws a `java.lang.Error`, because `catch (Exception e)` does not catch it.
  - The parser does not reject a success notification with missing order or transaction ids.

## Findings

| source | as written | input that shows it | evidently intended | confidence | as-written member | corrected member |
|---|---|---|---|---|---|---|
| src/main/java/com/alan344happyframework/core/callback/AlipayCallbackHandler.java:43 | the sign type for `rsaCheckV1` is read with `paramsMap.get("sign_type)")`, a key Alipay never sends, so verification always gets `null` | a verified notification carrying `sign_type=RSA2`: the handler passes no sign type | pass the notification's own `sign_type` value | medium: not executed; the effect of a null sign type depends on the SDK, whose source is not part of this model | AlipayCallback.HandleAsWritten (exhibited by AlipayCallback.SignTypeTypoCounterexample) | AlipayCallback.Handle |

=== FILE: alipay_callback.dfy ===
/**
 The Alipay callback dispatcher (`handler`): acquire the response writer,
 normalise the request, optionally verify the RSA signature, parse the
 notification, hand the event to the business handler, and write one
 acknowledgment line, "success" or "fail".

 The servlet, the Alipay SDK and the business service are parameters: the
 writer's availability is a flag, `rsaCheckV1` and the business handler are
 functions whose outcome the model does not interpret.
 */
module AlipayCallback {
  import opened Wrappers
  import opened AlipayParams
  import opened AlipayParser

  /** The read-only Alipay configuration the handler consults. */
  datatype AliPayConfig = AliPayConfig(openPublicKey: string, inputCharset: string)

  /** What the SDK's `rsaCheckV1` does: accept, reject, or throw `AlipayApiException`. */
  datatype CheckOutcome = Valid | Invalid | CheckRaised

  /** What the business handler does: return, throw an `Exception`, or throw a `java.lang.Error`. */
  datatype HandlerOutcome = Returned | RaisedException | RaisedError

  /** The arguments passed to `rsaCheckV1`. */
  datatype VerifyCall = VerifyCall(params: map<string, string>, publicKey: string, charset: string, signType: Option<string>)

  /** A step of the pipeline that actually ran. */
  datatype Stage = VerifyStage | ParseStage | HandlerStage(event: CallBackParam)

  /** What one invocation leaves behind: the lines written, the steps that ran, whether an exception escaped, the verify call made. */
  datatype Response = Response(written: seq<string>, stages: seq<Stage>, escapes: bool, verifyCall: Option<VerifyCall>)

  const SuccessAck := "success"
  const FailAck := "fail"

  /** The key the handler reads the sign type from, as the source spells it. */
  const SignTypeKeyAsWritten := "sign_type)"
  /** The key Alipay actually sends the sign type under. */
  const SignTypeKey := "sign_type"

  /** Position of a step in the pipeline. */
  function Rank(s: Stage): nat
  {
    match s
    case VerifyStage => 0
    case ParseStage => 1
    case HandlerStage(_) => 2
  }

  /** The call made to `rsaCheckV1` for these parameters, the sign type read from `signTypeKey`. */
  function SignCall(params: map<string, string>, config: AliPayConfig, signTypeKey: string): VerifyCall
  {
    VerifyCall(params, config.openPublicKey, config.inputCharset, Get(params, signTypeKey))
  }

  /** Verification was skipped, or it was requested and accepted the parameters. */
  predicate VerifyPasses(isVerify: bool, params: map<string, string>, config: AliPayConfig, signTypeKey: string,
                         rsaCheckV1: VerifyCall -> CheckOutcome)
  {
    !isVerify || rsaCheckV1(SignCall(params, config, signTypeKey)) == Valid
  }

  /** The handler's control flow, with the key the sign type is read from as a parameter. */
  function Dispatch(signTypeKey: string, writerAvailable: bool, request: map<string, seq<string>>, isVerify: bool,
                    config: AliPayConfig, rsaCheckV1: VerifyCall -> CheckOutcome,
                    business: CallBackParam -> HandlerOutcome): (r: Response)
    // a missing writer: the catch block dereferences null, nothing is written and an exception escapes
    ensures !writerAvailable ==> r.written == [] && r.stages == [] && r.escapes
    // exactly one acknowledgment, unless something escapes, and then none
    ensures r.escapes ==> r.written == []
    ensures !r.escapes ==> |r.written| == 1 && (r.written[0] == SuccessAck || r.written[0] == FailAck)
    // "success" exactly when verification passed or was skipped, parsing succeeded and the business handler returned
    ensures var params := CallBackMap(request);
      r.written == [SuccessAck] <==>
        && writerAvailable
        && VerifyPasses(isVerify, params, config, signTypeKey, rsaCheckV1)
        && IsTradeSuccess(params)
        && business(GetCallBackParam(params).value) == Returned
    // only a java.lang.Error from the business handler or a missing writer escapes
    ensures var params := CallBackMap(request);
      r.escapes <==>
        || !writerAvailable
        || (&& VerifyPasses(isVerify, params, config, signTypeKey, rsaCheckV1)
            && IsTradeSuccess(params)
            && business(GetCallBackParam(params).value) == RaisedError)
    // steps run in pipeline order
    ensures forall i, j :: 0 <= i < j < |r.stages| ==> Rank(r.stages[i]) < Rank(r.stages[j])
    // parsing only after a requested verification ran and passed
    ensures ParseStage in r.stages ==>
      && VerifyPasses(isVerify, CallBackMap(request), config, signTypeKey, rsaCheckV1)
      && (isVerify <==> VerifyStage in r.stages)
    // the business handler only on a verified success notification, and with its parsed event
    ensures forall e :: HandlerStage(e) in r.stages ==>
      && ParseStage in r.stages
      && VerifyPasses(isVerify, CallBackMap(request), config, signTypeKey, rsaCheckV1)
      && GetCallBackParam(CallBackMap(request)) == Success(e)
    // each step is recorded exactly when it runs: verification when requested,
    // parsing once verification passed or was skipped, the business handler on a success status
    ensures writerAvailable && isVerify <==> VerifyStage in r.stages
    ensures writerAvailable && VerifyPasses(isVerify, CallBackMap(request), config, signTypeKey, rsaCheckV1)
      <==> ParseStage in r.stages
    ensures var params := CallBackMap(request);
      (writerAvailable && VerifyPasses(isVerify, params, config, signTypeKey, rsaCheckV1) && IsTradeSuccess(params))
      <==> (exists e :: HandlerStage(e) in r.stages)
    ensures var params := CallBackMap(request);
      writerAvailable && VerifyPasses(isVerify, params, config, signTypeKey, rsaCheckV1) && IsTradeSuccess(params)
      ==> HandlerStage(GetCallBackParam(params).value) in r.stages
    // verification is called exactly when requested, with the normalised map and the configured key and charset
    ensures writerAvailable && isVerify <==> r.verifyCall.Some?
    ensures r.verifyCall.Some? ==> r.verifyCall.value == SignCall(CallBackMap(request), config, signTypeKey)
  {
    if !writerAvailable then
      Response([], [], true, None)
    else
      var params := CallBackMap(request);
      var verifyStages := if isVerify then [VerifyStage] else [];
      var verifyCall := if isVerify then Some(SignCall(params, config, signTypeKey)) else None;
      if isVerify && rsaCheckV1(SignCall(params, config, signTypeKey)) != Valid then
        Response([FailAck], verifyStages, false, verifyCall)
      else
        match GetCallBackParam(params)
        case Failure(_) => Response([FailAck], verifyStages + [ParseStage], false, verifyCall)
        case Success(event) =>
          var stages := verifyStages + [ParseStage, HandlerStage(event)];
          match business(event)
          case Returned => Response([SuccessAck], stages, false, verifyCall)
          case RaisedException => Response([FailAck], stages, false, verifyCall)
          case RaisedError => Response([], stages, true, verifyCall)
  }

  /** The handler exactly as written: the sign type is read from the key "sign_type)". */
  function HandleAsWritten(writerAvailable: bool, request: map<string, seq<string>>, isVerify: bool,
                           config: AliPayConfig, rsaCheckV1: VerifyCall -> CheckOutcome,
                           business: CallBackParam -> HandlerOutcome): (r: Response)
    ensures r.verifyCall.Some? ==> r.verifyCall.value.signType == Get(CallBackMap(request), SignTypeKeyAsWritten)
    ensures r.verifyCall.Some? ==> r.verifyCall.value.params == CallBackMap(request)
  {
    Dispatch(SignTypeKeyAsWritten, writerAvailable, request, isVerify, config, rsaCheckV1, business)
  }

  /** The handler as intended: the sign type is the one the notification carries under "sign_type". */
  function Handle(writerAvailable: bool, request: map<string, seq<string>>, isVerify: bool,
                  config: AliPayConfig, rsaCheckV1: VerifyCall -> CheckOutcome,
                  business: CallBackParam -> HandlerOutcome): (r: Response)
    ensures r.verifyCall.Some? ==> r.verifyCall.value.signType == Get(CallBackMap(request), SignTypeKey)
    ensures r.verifyCall.Some? ==> r.verifyCall.value.params == CallBackMap(request)
  {
    Dispatch(SignTypeKey, writerAvailable, request, isVerify, config, rsaCheckV1, business)
  }

  /**
   A notification that carries its sign type: the handler as written asks the SDK to
   check it with no sign type at all, while the intended handler passes "RSA2".
   */
  lemma SignTypeTypoCounterexample(config: AliPayConfig, rsaCheckV1: VerifyCall -> CheckOutcome,
                                   business: CallBackParam -> HandlerOutcome)
    ensures var request := map[SignTypeKey := ["RSA2"], "sign" := ["c2ln"]];
      && HandleAsWritten(true, request, true, config, rsaCheckV1, business).verifyCall.value.signType == None
      && Handle(true, request, true, config, rsaCheckV1, business).verifyCall.value.signType == Some("RSA2")
  {
  }

  /** A verified notification with a successful status and a handler that returns is acknowledged "success". */
  lemma ValidNotificationAcknowledged(request: map<string, seq<string>>, config: AliPayConfig,
                                      rsaCheckV1: VerifyCall -> CheckOutcome, business: CallBackParam -> HandlerOutcome)
    requires TradeStatusKey in request && request[TradeStatusKey] == [TradeSuccess]
    requires rsaCheckV1(SignCall(CallBackMap(request), config, SignTypeKey)) == Valid
    requires business(GetCallBackParam(CallBackMap(request)).value) == Returned
    ensures Handle(true, request, true, config, rsaCheckV1, business).written == [SuccessAck]
  {
  }

  /** A notification the SDK rejects is acknowledged "fail", and the business handler never sees it. */
  lemma TamperedNotificationRejected(request: map<string, seq<string>>, config: AliPayConfig,
                                     rsaCheckV1: VerifyCall -> CheckOutcome, business: CallBackParam -> HandlerOutcome)
    requires rsaCheckV1(SignCall(CallBackMap(request), config, SignTypeKey)) != Valid
    ensures var r := Handle(true, request, true, config, rsaCheckV1, business);
      && r.written == [FailAck]
      && r.stages == [VerifyStage]
  {
  }
}

=== FILE: alipay_params.dfy ===
/**
 The Alipay parameter normaliser: the servlet's multi-valued parameter map
 (`name -> String[]`) becomes a flat `name -> String` map. Several values are
 joined with a comma in array order, and an empty array becomes "".
 */
module AlipayParams {

  /** The separator placed between the values of one parameter. */
  const Delimiter: char := ','

  /** The values joined left to right with `Delimiter` between neighbours. */
  function Join(values: seq<string>): string
  {
    if |values| == 0 then ""
    else if |values| == 1 then values[0]
    else values[0] + [Delimiter] + Join(values[1..])
  }

  /** Total length of the values, delimiters not counted. */
  function SumLengths(values: seq<string>): nat
  {
    if |values| == 0 then 0 else |values[0]| + SumLengths(values[1..])
  }

  /** No value contains the delimiter, so joining loses no information. */
  predicate NoDelimiter(values: seq<string>)
  {
    forall i :: 0 <= i < |values| ==> Delimiter !in values[i]
  }

  /** Cuts `s` at every delimiter; always at least one piece, never containing the delimiter. */
  function Split(s: string): (parts: seq<string>)
    ensures |parts| >= 1
    ensures NoDelimiter(parts)
    decreases |s|
  {
    if |s| == 0 then [""]
    else
      var rest := Split(s[1..]);
      if s[0] == Delimiter then [""] + rest
      else [[s[0]] + rest[0]] + rest[1..]
  }

  /** The normalised map: same parameter names, each mapped to its joined values. */
  function CallBackMap(request: map<string, seq<string>>): map<string, string>
  {
    map name | name in request :: Join(request[name])
  }

  /** Appending one value to a non-empty list appends a delimiter and that value. */
  lemma {:induction false} JoinSnoc(values: seq<string>, last: string)
    requires |values| >= 1
    ensures Join(values + [last]) == Join(values) + [Delimiter] + last
    decreases |values|
  {
    if |values| == 1 {
      assert values + [last] == [values[0], last];
      assert [values[0], last][1..] == [last];
    } else {
      assert (values + [last])[1..] == values[1..] + [last];
      JoinSnoc(values[1..], last);
    }
  }

  /** The joined string is the values' lengths plus one delimiter between each neighbouring pair. */
  lemma {:induction false} JoinLength(values: seq<string>)
    requires |values| >= 1
    ensures |Join(values)| == SumLengths(values) + |values| - 1
    decreases |values|
  {
    if |values| > 1 {
      JoinLength(values[1..]);
    }
  }

  /** Splitting `x + "," + t` for a delimiter-free `x` yields `x` followed by the pieces of `t`. */
  lemma {:induction false} SplitAfterPiece(x: string, t: string)
    requires Delimiter !in x
    ensures Split(x + [Delimiter] + t) == [x] + Split(t)
    decreases |x|
  {
    var s := x + [Delimiter] + t;
    if |x| == 0 {
      assert s[1..] == t;
    } else {
      assert s[1..] == x[1..] + [Delimiter] + t;
      SplitAfterPiece(x[1..], t);
      assert [s[0]] + x[1..] == x;
    }
  }

  /** A delimiter-free string splits into itself alone. */
  lemma {:induction false} SplitPiece(x: string)
    requires Delimiter !in x
    ensures Split(x) == [x]
    decreases |x|
  {
    if |x| > 0 {
      SplitPiece(x[1..]);
      assert [x[0]] + x[1..] == x;
    }
  }

  /** Round trip: when no value contains a comma, splitting the joined string gives back the array. */
  lemma {:induction false} SplitJoin(values: seq<string>)
    requires |values| >= 1
    requires NoDelimiter(values)
    ensures Split(Join(values)) == values
    decreases |values|
  {
    if |values| == 1 {
      SplitPiece(values[0]);
    } else {
      SplitJoin(values[1..]);
      SplitAfterPiece(values[0], Join(values[1..]));
      assert [values[0]] + values[1..] == values;
    }
  }

  /** The other round trip: joining the pieces of any string rebuilds the string. */
  lemma {:induction false} JoinSplit(s: string)
    ensures Join(Split(s)) == s
    decreases |s|
  {
    if |s| > 0 {
      var rest := Split(s[1..]);
      JoinSplit(s[1..]);
      assert s == [s[0]] + s[1..];
      if s[0] == Delimiter {
        assert ([""] + rest)[1..] == rest;
      } else if |rest| > 1 {
        var parts := [[s[0]] + rest[0]] + rest[1..];
        assert parts[1..] == rest[1..];
      }
    }
  }

  /** Distinct comma-free, non-empty arrays never normalise to the same string. */
  lemma {:induction false} JoinInjective(a: seq<string>, b: seq<string>)
    requires |a| >= 1 && |b| >= 1
    requires NoDelimiter(a) && NoDelimiter(b)
    requires Join(a) == Join(b)
    ensures a == b
  {
    SplitJoin(a);
    SplitJoin(b);
  }

  /** The empty array and the one-element array [""] both normalise to "". */
  lemma EmptyArrayCollidesWithBlank()
    ensures Join([]) == Join([""]) == ""
  {
  }

  /** Every parameter whose values are comma-free and non-empty can be recovered from the normalised map. */
  lemma CallBackMapRecoversValues(request: map<string, seq<string>>, name: string)
    requires name in request
    requires |request[name]| >= 1 && NoDelimiter(request[name])
    ensures name in CallBackMap(request)
    ensures Split(CallBackMap(request)[name]) == request[name]
  {
    SplitJoin(request[name]);
  }

  /** The inner loop of the normaliser: values appended one by one, a comma after every value but the last. */
  method JoinValues(values: seq<string>) returns (valueStr: string)
    ensures |values| == 0 ==> valueStr == ""
    ensures |values| == 1 ==> valueStr == values[0]
    ensures valueStr == Join(values)
  {
    valueStr := "";
    var i := 0;
    while i < |values|
      invariant 0 <= i <= |values|
      invariant i == 0 ==> valueStr == ""
      invariant 0 < i < |values| ==> valueStr == Join(values[..i]) + [Delimiter]
      invariant 0 < i == |values| ==> valueStr == Join(values[..i])
    {
      if i > 0 {
        JoinSnoc(values[..i], values[i]);
        assert values[..i + 1] == values[..i] + [values[i]];
      } else {
        assert values[..1] == [values[0]];
      }
      valueStr := if i == |values| - 1 then valueStr + values[i] else valueStr + values[i] + [Delimiter];
      i := i + 1;
    }
    assert |values| > 0 ==> values[..|values|] == values;
  }

  /** The outer loop of the normaliser: one entry per parameter name, none dropped, renamed or defaulted. */
  method AlipayCallBackMap(request: map<string, seq<string>>) returns (params: map<string, string>)
    ensures params.Keys == request.Keys
    ensures forall name :: name in params ==> params[name] == Join(request[name])
    ensures params == CallBackMap(request)
  {
    params := map[];
    var remaining := request.Keys;
    while remaining != {}
      invariant remaining <= request.Keys
      invariant params.Keys == request.Keys - remaining
      invariant forall name :: name in params ==> params[name] == Join(request[name])
      decreases remaining
    {
      var name :| name in remaining;
      var valueStr := JoinValues(request[name]);
      params := params[name := valueStr];
      remaining := remaining - {name};
    }
  }
}

=== FILE: alipay_parser.dfy ===
/**
 The Alipay callback parser: a normalised notification is accepted only when its
 `trade_status` is "TRADE_SUCCESS", and then fixed fields are copied into a
 `CallBackParam`. Every other status, an absent one included, is the
 "trade_status error" failure.
 */
module AlipayParser {
  import opened Wrappers

  /**
   The payment channel recorded on an event. Its only value is Alipay, so the
   type itself fixes the pay type: the handler never reads it from the payload.
   */
  datatype PayType = Alipay

  /** The canonical event handed to the business handler; absent fields are `None` (Java `null`). */
  datatype CallBackParam = CallBackParam(
    orderId: Option<string>,
    thirdOrderId: Option<string>,
    payAccount: Option<string>,
    callBackPrice: Option<string>,
    payType: PayType)

  /** The `PayException`s the callback pipeline raises. */
  datatype PayError = TradeStatusError

  const TradeStatusKey := "trade_status"
  const OutTradeNoKey := "out_trade_no"
  const TradeNoKey := "trade_no"
  const BuyerIdKey := "buyer_id"
  const TotalAmountKey := "total_amount"

  /** The only status that counts as a final successful payment. */
  const TradeSuccess := "TRADE_SUCCESS"

  /** True when the notification reports a final successful payment. */
  predicate IsTradeSuccess(params: map<string, string>)
  {
    Get(params, TradeStatusKey) == Some(TradeSuccess)
  }

  /** Status classification followed by field mapping. */
  function GetCallBackParam(params: map<string, string>): (r: Result<CallBackParam, PayError>)
    ensures r.Success? <==> TradeStatusKey in params && params[TradeStatusKey] == TradeSuccess
    ensures r.Failure? ==> r.error == TradeStatusError
    ensures r.Success? ==> r.value.payType == Alipay
    ensures r.Success? ==> (r.value.orderId.Some? <==> OutTradeNoKey in params)
    ensures r.Success? ==> (r.value.callBackPrice.None? <==> TotalAmountKey !in params)
  {
    var outTradeNo := Get(params, OutTradeNoKey);
    var tradeNo := Get(params, TradeNoKey);
    var tradeStatus := Get(params, TradeStatusKey);
    var buyerId := Get(params, BuyerIdKey);
    var totalAmount := if TotalAmountKey in params then Get(params, TotalAmountKey) else None;
    if tradeStatus == Some(TradeSuccess) then
      Success(CallBackParam(outTradeNo, tradeNo, buyerId, totalAmount, Alipay))
    else
      Failure(TradeStatusError)
  }

  /** The notification an Alipay event would arrive as: a success status plus each present field under its key. */
  function Notification(event: CallBackParam): (params: map<string, string>)
    ensures IsTradeSuccess(params)
  {
    var base := map[TradeStatusKey := TradeSuccess];
    var withOrder := if event.orderId.Some? then base[OutTradeNoKey := event.orderId.value] else base;
    var withTrade := if event.thirdOrderId.Some? then withOrder[TradeNoKey := event.thirdOrderId.value] else withOrder;
    var withBuyer := if event.payAccount.Some? then withTrade[BuyerIdKey := event.payAccount.value] else withTrade;
    if event.callBackPrice.Some? then withBuyer[TotalAmountKey := event.callBackPrice.value] else withBuyer
  }

  /** Each success field is the value under its own key, absent exactly when the key is absent. */
  lemma ParseSuccessFields(params: map<string, string>)
    requires IsTradeSuccess(params)
    ensures GetCallBackParam(params).Success?
    ensures GetCallBackParam(params).value
         == CallBackParam(Get(params, OutTradeNoKey), Get(params, TradeNoKey), Get(params, BuyerIdKey),
                          Get(params, TotalAmountKey), Alipay)
  {
  }

  /** Any status other than "TRADE_SUCCESS", an absent one included, is rejected and yields no event. */
  lemma ParseRejectsOtherStatus(params: map<string, string>)
    requires !IsTradeSuccess(params)
    ensures GetCallBackParam(params) == Failure(TradeStatusError)
  {
  }

  /** The parser reads only its five keys: maps that agree on them parse alike. */
  lemma ParseReadsOnlyItsFields(a: map<string, string>, b: map<string, string>)
    requires Get(a, TradeStatusKey) == Get(b, TradeStatusKey)
    requires Get(a, OutTradeNoKey) == Get(b, OutTradeNoKey)
    requires Get(a, TradeNoKey) == Get(b, TradeNoKey)
    requires Get(a, BuyerIdKey) == Get(b, BuyerIdKey)
    requires Get(a, TotalAmountKey) == Get(b, TotalAmountKey)
    ensures GetCallBackParam(a) == GetCallBackParam(b)
  {
  }

  /** Round trip: parsing the notification of any event gives back that event. */
  lemma ParseNotificationRoundTrip(event: CallBackParam)
    ensures GetCallBackParam(Notification(event)) == Success(event)
  {
    assert event.payType == Alipay;
  }

  /** A success notification carrying all fields maps each to its event field. */
  lemma ParseCompleteExample()
    ensures GetCallBackParam(map[TradeStatusKey := "TRADE_SUCCESS", OutTradeNoKey := "ORD1", TradeNoKey := "TXN1",
                                 BuyerIdKey := "B1", TotalAmountKey := "9.99"])
         == Success(CallBackParam(Some("ORD1"), Some("TXN1"), Some("B1"), Some("9.99"), Alipay))
  {
  }

  /** A success notification with no other field is accepted with every field absent. */
  lemma ParseMissingFieldsExample()
    ensures GetCallBackParam(map[TradeStatusKey := "TRADE_SUCCESS"])
         == Success(CallBackParam(None, None, None, None, Alipay))
  {
  }

  /** A pending payment is rejected. */
  lemma ParseWaitBuyerPayExample()
    ensures GetCallBackParam(map[TradeStatusKey := "WAIT_BUYER_PAY", OutTradeNoKey := "ORD1"])
         == Failure(TradeStatusError)
  {
  }
}

=== FILE: wechat_sign.dfy ===
/**
 The WeChat response signature check (`checkIsSignValidFromResponseString`):
 read the received `sign`, blank the map's `sign` entry in place, recompute a
 signature over the whole map and compare it with the received one.

 `Signature.getSign` is a parameter the model does not interpret. The in-place
 mutation is returned as the map the caller holds afterwards.
 */
module WeChatSign {
  import opened Wrappers

  const SignKey := "sign"

  /** The exceptions the check can raise. */
  datatype JavaError = NullPointer

  /**
   The check's outcome, the caller's map as the check leaves it, and whether the
   map's sign entry is now the very object of the literal "" (which decides the
   reference comparison of the next check on that map).
   */
  datatype SignCheck = SignCheck(outcome: Result<bool, JavaError>, mapAfter: map<string, string>, signIsLiteral: bool)

  /** The map with the received signature blanked, which is what gets re-signed. */
  function Blanked(m: map<string, string>): map<string, string>
  {
    m[SignKey := ""]
  }

  /** No collision of `getSign` between these two maps. */
  predicate CollisionFree(getSign: map<string, string> -> string, a: map<string, string>, b: map<string, string>)
  {
    a != b ==> getSign(a) != getSign(b)
  }

  /**
   The check as written. `receivedIsLiteral` says whether the received string is
   the very object of the literal "" (the early check compares references); it
   can only matter when the received sign is empty.
   */
  function CheckIsSignValid(m: map<string, string>, receivedIsLiteral: bool,
                            getSign: map<string, string> -> string): (r: SignCheck)
    // an absent sign is a NullPointerException from toString(), not a false, and the map is untouched
    ensures r.outcome.Failure? <==> SignKey !in m
    ensures r.outcome.Failure? ==> r.outcome.error == NullPointer && r.mapAfter == m
    // true exactly when the recomputed signature equals the sign held before the call and the early check did not fire
    ensures r.outcome == Success(true) <==>
      && SignKey in m
      && getSign(Blanked(m)) == m[SignKey]
      && !(m[SignKey] == "" && receivedIsLiteral)
    // an empty received sign is rejected whenever the recomputed signature is non-empty
    ensures SignKey in m && m[SignKey] == "" && getSign(Blanked(m)) != "" ==> r.outcome == Success(false)
    // the frame: no key is added or removed; only the sign entry changes, and it becomes ""
    ensures r.mapAfter.Keys == m.Keys
    ensures SignKey in m ==> r.mapAfter == Blanked(m)
    // whenever a sign was present, the map's sign entry is left holding the literal ""
    ensures r.signIsLiteral <==> SignKey in m
  {
    if SignKey !in m then
      SignCheck(Failure(NullPointer), m, false)
    else
      var signFromApiResponse := m[SignKey];
      if signFromApiResponse == "" && receivedIsLiteral then
        SignCheck(Success(false), m, true)
      else
        var blanked := m[SignKey := ""];
        var signForApiResponse := getSign(blanked);
        SignCheck(Success(signForApiResponse == signFromApiResponse), blanked, true)
  }

  /** The received sign is not signed over: maps that differ only in their sign recompute the same signature. */
  lemma {:induction false} SignFieldExcluded(a: map<string, string>, b: map<string, string>,
                                            getSign: map<string, string> -> string)
    requires SignKey in a && SignKey in b
    requires a - {SignKey} == b - {SignKey}
    ensures getSign(Blanked(a)) == getSign(Blanked(b))
  {
    forall k | k in Blanked(a)
      ensures k in Blanked(b) && Blanked(a)[k] == Blanked(b)[k]
    {
      if k != SignKey {
        assert k in a - {SignKey};
        assert (a - {SignKey})[k] == (b - {SignKey})[k];
      }
    }
    assert Blanked(a).Keys == Blanked(b).Keys by {
      forall k | k in Blanked(b) ensures k in Blanked(a) {
        if k != SignKey {
          assert k in b - {SignKey};
        }
      }
    }
    assert Blanked(a) == Blanked(b);
  }

  /**
   Tampering with any field other than the sign is detected: if a map passes and
   another carrying the same sign differs elsewhere, the second fails, unless
   `getSign` collides on the two blanked maps.
   */
  lemma TamperedFieldRejected(m: map<string, string>, tampered: map<string, string>, lit: bool,
                              getSign: map<string, string> -> string)
    requires CheckIsSignValid(m, lit, getSign).outcome == Success(true)
    requires SignKey in tampered && tampered[SignKey] == m[SignKey]
    requires tampered - {SignKey} != m - {SignKey}
    requires CollisionFree(getSign, Blanked(m), Blanked(tampered))
    ensures CheckIsSignValid(tampered, lit, getSign).outcome == Success(false)
  {
  }

  /**
   The mutation the check leaves behind: the map's sign entry is now the literal
   "", so a second check on that map takes the early reference-equality exit and
   fails without re-signing, whatever `getSign` computes, and changes nothing.
   */
  lemma RepeatedCheckFails(m: map<string, string>, lit: bool, getSign: map<string, string> -> string)
    requires SignKey in m
    ensures var first := CheckIsSignValid(m, lit, getSign);
      && CheckIsSignValid(first.mapAfter, first.signIsLiteral, getSign).outcome == Success(false)
      && CheckIsSignValid(first.mapAfter, first.signIsLiteral, getSign).mapAfter == first.mapAfter
  {
  }

  /**
   Without the early check, the string comparison still rejects an empty sign
   whenever the recomputed signature is non-empty, whatever the references are.
   Either way the map is left with its sign entry the literal "".
   */
  lemma EmptySignRejectedEitherWay(m: map<string, string>, getSign: map<string, string> -> string)
    requires SignKey in m && m[SignKey] == ""
    requires getSign(Blanked(m)) != ""
    ensures CheckIsSignValid(m, true, getSign).outcome == CheckIsSignValid(m, false, getSign).outcome == Success(false)
    ensures CheckIsSignValid(m, true, getSign).mapAfter == CheckIsSignValid(m, false, getSign).mapAfter == m
    ensures CheckIsSignValid(m, true, getSign).signIsLiteral && CheckIsSignValid(m, false, getSign).signIsLiteral
  {
  }
}

=== FILE: wrappers.dfy ===
/** Option and Result, the model's stand-ins for Java's null and for thrown exceptions. */
module Wrappers {

  /** A value that may be absent; `None` plays the part of Java's `null`. */
  datatype Option<+T> = None | Some(value: T)

  /** The outcome of a step that either produces a value or raises an error. */
  datatype Result<+R, +E> = Success(value: R) | Failure(error: E)

  /** The value stored under `key`, or `None` when the key is absent (Java's `Map.get`). */
  function Get<K, V>(m: map<K, V>, key: K): (r: Option<V>)
    ensures r.Some? <==> key in m
    ensures r.Some? ==> r.value == m[key]
  {
    if key in m then Some(m[key]) else None
  }
}
